=== FILE: README.md ===
# Statements ledger — a Dafny model

This project models the statements module of a small account service.
The ledger is an append-only table of statement records. Each record has an
owner (`user_id`), an optional payer (`sender_id`), a type (deposit,
withdraw or transfer), an amount and a description. No balance is stored
anywhere. A user's balance and statement list are derived from the table
each time they are needed.

A transfer is one record. It is filed under the receiver and names the
payer in `sender_id`. The balance rule reads that one row in two ways: it
is a credit for its owner and a debit for its sender.

Modules:

- `Results` (`results.dfy`): `Option` for the nullable `sender_id` column and `Result` for the use cases' thrown errors.
- `Ledger` (`ledger.dfy`): the record, the log, the balance rule (`Effect`, `Balance`) and the statement list (`Statements`). It also holds the four-sum form of the balance, a one-pass aggregation method (`GetUserBalance`), the log invariant (`WellFormed`) and lookup by id.
- `TransferFunds` (`transfer_funds.dfy`): the transfer use case. It checks funds, then looks up the receiver, then appends one record.
- `CreateStatement` (`create_statement.dfy`): the deposit/withdraw rule. It looks up the account, checks funds for a withdrawal, then appends one record.
- `BalanceMap` (`balance_map.dfy`): the response mapper. It projects each record and drops a falsy `sender_id`.
- `LedgerScenarios` (`scenarios.dfy`): the use cases' test scenarios replayed on the model, and the payer's view of a transfer.

Modelling choices:

- Amounts are integers. Read them as cents.
- The use cases check neither the sign nor the size of an amount, and the model keeps it that way. `TransferFunds.NegativeAmountDrainsReceiver` shows what a negative transfer does. The solvency lemmas therefore require a non-negative amount.
- The user directory is a `set<UserId>`. The clock is a `now` parameter.
- A new record's id is its position in the log. This stands in for the uuid the database assigns: ids stay unique, and `FindById` finds the record again.
- A user's statement list holds the records filed under the user plus the transfers the user sent, in log order. The sender's list has 2 entries after a deposit and a transfer (`TransferFundsUseCase.spec.ts:80`).
- A self-transfer is not rejected, because the transfer use case has no sender ≠ receiver check. It succeeds when the funds check passes and the account is in the directory, and it leaves the balance unchanged (`TransferFunds.SelfTransferKeepsBalance`).
- `CreateStatementUseCase` is modelled from its tests (`CreateStatementUseCase.spec.ts:40-93`). The account lookup must come first: an unknown user withdrawing 100 gets `UserNotFound` (`CreateStatementUseCase.spec.ts:72-82`). That user's balance of 0 would otherwise have produced `InsufficientFunds`.
- `!sender_id` in the mapper is JavaScript truthiness, so both an absent id and the empty string are dropped (`BalanceMap.Truthy`).
- The mapper never mutates its input: records and views are immutable values, and each view is a new value.

## Model

| member | source | states |
|---|---|---|
| Ledger.Statements | src/modules/statements/useCases/transferFunds/TransferFundsUseCase.spec.ts:79-83 | the statement list contains every log record filed under or sent by the user, and nothing else; it is never longer than the log |
| Ledger.BalanceAppend | src/modules/statements/useCases/transferFunds/TransferFundsUseCase.spec.ts:79-83 | appending one record changes a user's balance by that record's effect alone: owner credit, minus the withdrawal, minus the transfer paid |
| Ledger.StatementsAppend | src/modules/statements/useCases/transferFunds/TransferFundsUseCase.spec.ts:79-83 | appending one record adds it to the lists of exactly the users it involves, at the end |
| Ledger.BalanceDecomposition | src/modules/statements/useCases/transferFunds/TransferFundsUseCase.spec.ts:53-84 | balance = owned deposits + owned (received) transfers − owned withdrawals − transfers where the user is the sender |
| Ledger.DepositsMinusWithdrawals | src/modules/statements/useCases/getBalance/GetBalanceUseCase.spec.ts:38-63 | a log with no transfers gives Σ deposits − Σ withdrawals |
| Ledger.GetUserBalance | src/modules/statements/useCases/transferFunds/TransferFundsUseCase.spec.ts:61-69 | one pass over the log computes the same balance and the same statement list as the derivation rule |
| Ledger.FindById | src/modules/statements/useCases/getStatementOperation/GetStatementUseCase.spec.ts:56-70 | a found record is in the log and has the requested id; not found means no record has that id |
| Ledger.FindByIdFindsRecord | src/modules/statements/useCases/getStatementOperation/GetStatementUseCase.spec.ts:56-70 | in a well-formed log, looking up a record's id returns that record |
| TransferFunds.Execute | src/modules/statements/useCases/transferFunds/TransferFundsUseCase.ts:30-59 | balance < amount gives InsufficientFunds with the log unchanged, whether or not the receiver exists; otherwise a missing receiver gives UserNotFound with the log unchanged; success happens iff funds suffice and the receiver exists, and then exactly one record is appended and returned: filed under the receiver, sender_id = payer, type transfer, same amount and description |
| TransferFunds.WholeBalanceCanBeSent | src/modules/statements/useCases/transferFunds/TransferFundsUseCase.ts:40-42 | sending exactly the whole balance to an existing receiver succeeds, because the comparison is strict |
| TransferFunds.TransferMovesFunds | src/modules/statements/useCases/transferFunds/TransferFundsUseCase.spec.ts:79-83 | after a successful transfer between two accounts, the sender's balance falls by the amount, the receiver's rises by it, and every other balance is unchanged |
| TransferFunds.SelfTransferKeepsBalance | src/modules/statements/useCases/transferFunds/TransferFundsUseCase.ts:36-56 | with no sender ≠ receiver check, a self-transfer by an account in the directory with enough funds succeeds and leaves the balance as it was |
| TransferFunds.TransferExtendsStatements | src/modules/statements/useCases/transferFunds/TransferFundsUseCase.spec.ts:79-83 | a successful transfer appends the new record to both the sender's and the receiver's lists and leaves every other list unchanged |
| TransferFunds.TransferNeverOverdrawsSender | src/modules/statements/useCases/transferFunds/TransferFundsUseCase.ts:36-42 | the funds check keeps the sender's balance non-negative after a successful transfer to another account |
| TransferFunds.TransferPreservesSolvency | src/modules/statements/useCases/transferFunds/TransferFundsUseCase.ts:36-56 | if no account is overdrawn before, a transfer of a non-negative amount leaves no account overdrawn |
| TransferFunds.NegativeAmountDrainsReceiver | src/modules/statements/useCases/transferFunds/TransferFundsUseCase.ts:30-56 | a transfer of −50 passes the funds check and leaves the receiver at −50, since amounts are not validated |
| TransferFunds.TransferPreservesWellFormed | src/modules/statements/useCases/transferFunds/TransferFundsUseCase.ts:50-58 | a transfer keeps ids unique and sender_id set exactly on transfers, and the returned record is found again by its id |
| CreateStatement.Execute | src/modules/statements/useCases/createStatement/CreateStatementUseCase.spec.ts:40-93 | an unknown user gives UserNotFound; a withdrawal above the balance gives InsufficientFunds; the log is unchanged on both; success iff the user exists and the operation is a deposit or a covered withdrawal, and then one record is appended under the user, with no sender and the given type, amount and description |
| CreateStatement.MovementMovesFunds | src/modules/statements/useCases/createStatement/CreateStatementUseCase.spec.ts:40-70 | a deposit raises the user's balance by the amount and a withdrawal lowers it by the amount; the user's list gains the record; other users' balances and lists are unchanged |
| CreateStatement.UnknownUserTakesPrecedence | src/modules/statements/useCases/createStatement/CreateStatementUseCase.spec.ts:72-82 | an unknown user's withdrawal is reported as UserNotFound even when it also exceeds the balance |
| CreateStatement.MovementPreservesSolvency | src/modules/statements/useCases/createStatement/CreateStatementUseCase.spec.ts:84-93 | withdrawals, and deposits of non-negative amounts, leave no account overdrawn |
| CreateStatement.MovementPreservesWellFormed | src/database/migrations/1643248095293-AddColunmSenderIdInProduct.ts:6-16 | a deposit or withdrawal keeps ids unique and sender_id null on non-transfers, and the record is found again by its id |
| BalanceMap.ToView | src/modules/statements/mappers/BalanceMap.ts:5-29 | each entry keeps id, amount, description, type, created_at and updated_at; sender_id is present iff the record's sender_id is truthy, and then it is the same value |
| BalanceMap.ToDTO | src/modules/statements/mappers/BalanceMap.ts:4-36 | the output list has the input list's length and order, entry i is the projection of record i, and the balance passes through |
| BalanceMap.ViewRoundTrip | src/modules/statements/mappers/BalanceMap.ts:14-26 | the projection loses only the owner: adding the owner back rebuilds the record, unless sender_id is the empty string |
| BalanceMap.EmptySenderIsDropped | src/modules/statements/mappers/BalanceMap.ts:24-26 | an empty-string sender_id is falsy and is deleted, so that record cannot be rebuilt |
| BalanceMap.ToViewInjective | src/modules/statements/mappers/BalanceMap.ts:14-22 | two records with the same owner and no empty-string sender that map to equal views are equal |
| LedgerScenarios.GetBalanceScenario | src/modules/statements/useCases/getBalance/GetBalanceUseCase.spec.ts:38-63 | deposit 150 then withdraw 45 gives balance 105 with 2 entries |
| LedgerScenarios.CreateStatementScenario | src/modules/statements/useCases/createStatement/CreateStatementUseCase.spec.ts:40-93 | the deposit of 510 and the withdrawal of 100 return records with those amounts, descriptions and types, after which the balance is 410 with 2 entries; withdrawing 139000 fails with InsufficientFunds; an unknown user fails with UserNotFound; neither failure changes the log |
| LedgerScenarios.TransferScenario | src/modules/statements/useCases/transferFunds/TransferFundsUseCase.spec.ts:53-106 | deposit 4500 then transfer 400 gives the sender 4100 with 2 entries and the receiver 400 with 1 entry; then 40000 to a missing user gives InsufficientFunds, 400 to a missing user gives UserNotFound, and another 400 to the receiver succeeds |
| LedgerScenarios.TransferControllerScenario | src/modules/statements/useCases/transferFunds/TransferFundsController.spec.ts:42-94 | deposit 900 then transfer 510 leaves 390, and the returned record carries the payer's sender_id, amount 510, the description and type transfer |
| LedgerScenarios.SenderSeesOutgoingTransfer | src/modules/statements/mappers/BalanceMap.ts:14-26 | after a successful transfer, the sender's balance response gains one final entry of type transfer with the sender's id as sender_id and the sent amount |

## Left out

- HTTP layer (`TransferFundsController`, the statement routes, the error middleware and status codes): transport only.
- Database connection setup and running the migration: persistence and I/O.
- The users module (creating users, authentication, profiles): password hashing and tokens are library calls. The directory is modelled as a set of ids.
- The statements repository's `getUserBalance` aggregation is modelled as `Ledger.Balance` and `Ledger.Statements`, using the balance formula its tests pin down; its query code is not part of this model.
- `CreateStatementUseCase` is modelled from its tests (`CreateStatementUseCase.spec.ts:40-93`); its implementation is not part of this model.
- The get-balance and get-statement use cases are represented only by the lookups they wrap (`Ledger.UserBalance` and `Ledger.FindById`). Their user-not-found error paths are not modelled.
- Concurrency: the window between reading the balance and appending the record, where two debits can both pass the check. The model is sequential.
- `Number(...)` coercion of decimal strings and JavaScript floating-point amounts: amounts are integers.
- Amount and description validation: the use cases do none, so no `InvalidInput` error is added.
- uuid generation and clock reads: ids are log positions and `now` is a parameter.
- Ordering the statement list by `created_at`: the model keeps log (insertion) order.
- The `users` foreign key on `sender_id` (cascade on update and delete): there are no user deletions in the model. The key also rejects a transfer whose sender is not a user. `TransferFunds.Execute` does not look at the sender, so in the model that transfer succeeds.
- Ledger.Statements: describes which records the list contains, but not that it keeps them in log order. The order is fixed by the definition and by `Ledger.StatementsAppend`.

=== FILE: balance_map.dfy ===
/** The response mapper: reshapes a balance report for output. Each record
    becomes a fresh view without the owner column; `senderId` is kept only
    when it is truthy; the balance passes through. */
module BalanceMap {
  import opened Results
  import opened Ledger

  /** One output entry: the record's fields minus its owner. */
  datatype StatementView = StatementView(
    id: nat,
    senderId: Option<UserId>,
    amount: int,
    description: string,
    kind: OperationType,
    createdAt: int,
    updatedAt: int)

  datatype BalanceView = BalanceView(statement: seq<StatementView>, balance: int)

  /** A present, non-empty id; an absent id and the empty string are both
      falsy and lose the field. */
  predicate Truthy(id: Option<UserId>) {
    id.Some? && id.value != ""
  }

  /** The per-record projection. */
  function ToView(r: Statement): (v: StatementView)
    ensures v.id == r.id && v.amount == r.amount && v.description == r.description
    ensures v.kind == r.kind && v.createdAt == r.createdAt && v.updatedAt == r.updatedAt
    ensures v.senderId.Some? <==> Truthy(r.senderId)
    ensures v.senderId.Some? ==> v.senderId == r.senderId
  {
    StatementView(r.id, if Truthy(r.senderId) then r.senderId else None,
                  r.amount, r.description, r.kind, r.createdAt, r.updatedAt)
  }

  /** The whole response: entries in the same order, balance unchanged. */
  function ToDTO(report: BalanceReport): (d: BalanceView)
    ensures |d.statement| == |report.statement|
    ensures forall i :: 0 <= i < |d.statement| ==> d.statement[i] == ToView(report.statement[i])
    ensures d.balance == report.balance
  {
    BalanceView(seq(|report.statement|, i requires 0 <= i < |report.statement| => ToView(report.statement[i])),
                report.balance)
  }

  /** Rebuilds a record from its view and the owner the view dropped. */
  function FromView(v: StatementView, owner: UserId): Statement {
    Statement(v.id, owner, v.senderId, v.kind, v.amount, v.description, v.createdAt, v.updatedAt)
  }

  /** The projection loses nothing but the owner, unless `senderId` is the
      empty string. */
  lemma ViewRoundTrip(r: Statement)
    requires r.senderId != Some("")
    ensures FromView(ToView(r), r.userId) == r
  {
  }

  /** An empty-string `senderId` is falsy and is dropped like an absent one. */
  lemma EmptySenderIsDropped(r: Statement)
    requires r.senderId == Some("")
    ensures ToView(r).senderId == None
    ensures FromView(ToView(r), r.userId) != r
  {
  }

  /** Two records with the same owner and truthy-or-absent senders map to
      the same view only if they are equal. */
  lemma ToViewInjective(r: Statement, s: Statement)
    requires r.userId == s.userId && r.senderId != Some("") && s.senderId != Some("")
    requires ToView(r) == ToView(s)
    ensures r == s
  {
    ViewRoundTrip(r);
    ViewRoundTrip(s);
  }
}

=== FILE: create_statement.dfy ===
/** The deposit/withdraw use case: resolve the account, check the funds of
    a withdrawal, then append one record filed under the account. */
module CreateStatement {
  import opened Results
  import opened Ledger

  /** The operations the deposit and withdraw routes accept. */
  type MovementType = t: OperationType | t != Transfer witness Deposit

  datatype CreateStatementError = UserNotFound | InsufficientFunds

  /** The record a successful deposit or withdrawal appends. */
  function MovementRecord(log: Log, userId: UserId, kind: MovementType, amount: int, description: string, now: int): Statement {
    Statement(|log|, userId, None, kind, amount, description, now, now)
  }

  /** Runs a deposit or withdrawal. The account is looked up first; only a
      withdrawal is checked against the balance; nothing is appended on
      either failure. */
  function Execute(log: Log, users: set<UserId>, userId: UserId, kind: MovementType,
                   amount: int, description: string, now: int): (out: Step<CreateStatementError>)
    ensures userId !in users ==> out == Step(Failure(UserNotFound), log)
    ensures userId in users && kind == Withdraw && Balance(log, userId) < amount ==>
              out == Step(Failure(InsufficientFunds), log)
    ensures out.result.Success? <==>
              userId in users && (kind == Deposit || Balance(log, userId) >= amount)
    ensures out.result.Success? ==>
              var st := out.result.value;
              && out.log == log + [st]
              && st.id == |log|
              && st.userId == userId
              && st.senderId == None
              && st.kind == kind
              && st.amount == amount
              && st.description == description
  {
    if userId !in users then
      Step(Failure(UserNotFound), log)
    else if kind == Withdraw && Balance(log, userId) < amount then
      Step(Failure(InsufficientFunds), log)
    else
      var st := MovementRecord(log, userId, kind, amount, description, now);
      Step(Success(st), log + [st])
  }

  /** A successful deposit raises the account's balance by the amount and a
      successful withdrawal lowers it by the amount; other accounts keep
      theirs; the account's statement list gains the new record. */
  lemma MovementMovesFunds(log: Log, users: set<UserId>, userId: UserId, kind: MovementType,
                           amount: int, description: string, now: int, other: UserId)
    requires Execute(log, users, userId, kind, amount, description, now).result.Success?
    ensures var out := Execute(log, users, userId, kind, amount, description, now);
            && Balance(out.log, userId)
                 == Balance(log, userId) + (if kind == Deposit then amount else -amount)
            && Statements(out.log, userId) == Statements(log, userId) + [out.result.value]
            && (other != userId ==> Balance(out.log, other) == Balance(log, other))
            && (other != userId ==> Statements(out.log, other) == Statements(log, other))
  {
    var st := MovementRecord(log, userId, kind, amount, description, now);
    BalanceAppend(log, st, userId);
    BalanceAppend(log, st, other);
    StatementsAppend(log, st, userId);
    StatementsAppend(log, st, other);
  }

  /** An unknown account is reported as such even when the request would
      also fail the funds check. */
  lemma UnknownUserTakesPrecedence(log: Log, users: set<UserId>, userId: UserId,
                                   amount: int, description: string, now: int)
    requires userId !in users && Balance(log, userId) < amount
    ensures Execute(log, users, userId, Withdraw, amount, description, now).result
            == Failure(UserNotFound)
  {
  }

  /** A deposit of a non-negative amount or any withdrawal keeps every
      account solvent. */
  lemma MovementPreservesSolvency(log: Log, users: set<UserId>, userId: UserId, kind: MovementType,
                                  amount: int, description: string, now: int)
    requires Solvent(log)
    requires kind == Deposit ==> amount >= 0
    ensures Solvent(Execute(log, users, userId, kind, amount, description, now).log)
  {
    var out := Execute(log, users, userId, kind, amount, description, now);
    if out.result.Success? {
      forall u ensures Balance(out.log, u) >= 0 {
        BalanceAppend(log, out.result.value, u);
      }
    }
  }

  /** A deposit or withdrawal keeps the log well formed, and the new record
      can be fetched back by its id. */
  lemma MovementPreservesWellFormed(log: Log, users: set<UserId>, userId: UserId, kind: MovementType,
                                    amount: int, description: string, now: int)
    requires WellFormed(log)
    ensures var out := Execute(log, users, userId, kind, amount, description, now);
            && WellFormed(out.log)
            && (out.result.Success? ==> FindById(out.log, out.result.value.id) == Some(out.result.value))
  {
    var out := Execute(log, users, userId, kind, amount, description, now);
    if out.result.Success? {
      assert forall i :: 0 <= i < |log| ==> out.log[i] == log[i];
      FindByIdFindsRecord(out.log, |log|);
    }
  }
}

=== FILE: ledger.dfy ===
/** The statements ledger: the record shape, the append-only log, and the
    balance and statement list derived from it. A transfer is ONE record,
    filed under the receiver and carrying the payer as `senderId`; the
    balance rule reads it twice, as a credit for its owner and as a debit
    for its sender. */
module Ledger {
  import opened Results

  type UserId = string

  /** The `type` column: the enum fixed by the migration. */
  datatype OperationType = Deposit | Withdraw | Transfer

  /** One row of the `statements` table. `id` is assigned on append and
      `createdAt`/`updatedAt` come from the clock at that moment. */
  datatype Statement = Statement(
    id: nat,
    userId: UserId,
    senderId: Option<UserId>,
    kind: OperationType,
    amount: int,
    description: string,
    createdAt: int,
    updatedAt: int)

  /** The whole table, in insertion order. */
  type Log = seq<Statement>

  /** What a use case hands back: its result and the log after it ran. */
  datatype Step<+E> = Step(result: Result<Statement, E>, log: Log)

  /** What `getUserBalance` with `with_statement` returns. */
  datatype BalanceReport = BalanceReport(statement: Log, balance: int)

  function Init(log: Log): Log
    requires log != []
  {
    log[..|log| - 1]
  }

  function Last(log: Log): Statement
    requires log != []
  {
    log[|log| - 1]
  }

  lemma InitLastOfSnoc(log: Log, r: Statement)
    ensures Init(log + [r]) == log && Last(log + [r]) == r
  {
  }

  /** `r` is a transfer paid by `u`. */
  predicate SentBy(r: Statement, u: UserId) {
    r.kind == Transfer && r.senderId == Some(u)
  }

  /** `r` shows up in `u`'s statement list: filed under `u`, or sent by `u`. */
  predicate Involves(r: Statement, u: UserId) {
    r.userId == u || SentBy(r, u)
  }

  /** How much `r` moves `u`'s balance: deposits and received transfers
      credit the owner, withdrawals debit the owner, and a transfer also
      debits its sender. */
  function Effect(r: Statement, u: UserId): int {
    (if r.userId == u then (if r.kind == Withdraw then -r.amount else r.amount) else 0)
    - (if SentBy(r, u) then r.amount else 0)
  }

  /** The balance of `u`, derived from the log; no balance is stored. */
  function Balance(log: Log, u: UserId): int
    decreases |log|
  {
    if log == [] then 0 else Balance(Init(log), u) + Effect(Last(log), u)
  }

  /** The statement list of `u`, in log order. */
  function Statements(log: Log, u: UserId): (r: Log)
    decreases |log|
    ensures |r| <= |log|
    ensures forall i :: 0 <= i < |r| ==> Involves(r[i], u) && r[i] in log
    ensures forall i :: 0 <= i < |log| && Involves(log[i], u) ==> log[i] in r
  {
    if log == [] then []
    else
      var rest := Statements(Init(log), u);
      if Involves(Last(log), u) then rest + [Last(log)] else rest
  }

  /** What `getUserBalance` reports for `u`. */
  function UserBalance(log: Log, u: UserId): BalanceReport {
    BalanceReport(Statements(log, u), Balance(log, u))
  }

  /** Appending a record moves each balance by that record's effect alone. */
  lemma BalanceAppend(log: Log, r: Statement, u: UserId)
    ensures Balance(log + [r], u) == Balance(log, u) + Effect(r, u)
  {
    InitLastOfSnoc(log, r);
  }

  /** Appending a record extends exactly the lists of the users it involves. */
  lemma StatementsAppend(log: Log, r: Statement, u: UserId)
    ensures Statements(log + [r], u) == Statements(log, u) + (if Involves(r, u) then [r] else [])
  {
    InitLastOfSnoc(log, r);
  }

  /** No account is overdrawn. */
  ghost predicate Solvent(log: Log) {
    forall u :: Balance(log, u) >= 0
  }

  // ---- The balance rule as four sums --------------------------------

  /** Records of kind `k` filed under `u`. */
  function Owned(log: Log, u: UserId, k: OperationType): Log
    decreases |log|
  {
    if log == [] then []
    else
      var rest := Owned(Init(log), u, k);
      if Last(log).userId == u && Last(log).kind == k then rest + [Last(log)] else rest
  }

  /** Transfers paid by `u`, wherever they are filed. */
  function Sent(log: Log, u: UserId): Log
    decreases |log|
  {
    if log == [] then [] else
      var rest := Sent(Init(log), u);
      if SentBy(Last(log), u) then rest + [Last(log)] else rest
  }

  function Total(rs: Log): int
    decreases |rs|
  {
    if rs == [] then 0 else Total(Init(rs)) + Last(rs).amount
  }

  lemma TotalSnoc(rs: Log, r: Statement)
    ensures Total(rs + [r]) == Total(rs) + r.amount
  {
    InitLastOfSnoc(rs, r);
  }

  /** One step of the owned-records sum. */
  lemma OwnedStep(log: Log, u: UserId, k: OperationType)
    requires log != []
    ensures Total(Owned(log, u, k))
         == Total(Owned(Init(log), u, k))
          + (if Last(log).userId == u && Last(log).kind == k then Last(log).amount else 0)
  {
    if Last(log).userId == u && Last(log).kind == k {
      TotalSnoc(Owned(Init(log), u, k), Last(log));
    }
  }

  /** One step of the sent-transfers sum. */
  lemma SentStep(log: Log, u: UserId)
    requires log != []
    ensures Total(Sent(log, u))
         == Total(Sent(Init(log), u)) + (if SentBy(Last(log), u) then Last(log).amount else 0)
  {
    if SentBy(Last(log), u) {
      TotalSnoc(Sent(Init(log), u), Last(log));
    }
  }

  /** The balance is owned deposits plus received transfers, minus owned
      withdrawals and transfers sent. */
  lemma {:induction false} BalanceDecomposition(log: Log, u: UserId)
    ensures Balance(log, u)
         == Total(Owned(log, u, Deposit)) + Total(Owned(log, u, Transfer))
          - Total(Owned(log, u, Withdraw)) - Total(Sent(log, u))
    decreases |log|
  {
    if log != [] {
      BalanceDecomposition(Init(log), u);
      OwnedStep(log, u, Deposit);
      OwnedStep(log, u, Transfer);
      OwnedStep(log, u, Withdraw);
      SentStep(log, u);
    }
  }

  /** A log without transfers gives Σ deposits − Σ withdrawals. */
  lemma DepositsMinusWithdrawals(log: Log, u: UserId)
    requires forall i :: 0 <= i < |log| ==> log[i].kind != Transfer
    ensures Balance(log, u) == Total(Owned(log, u, Deposit)) - Total(Owned(log, u, Withdraw))
  {
    BalanceDecomposition(log, u);
    NoTransfersOwned(log, u);
  }

  lemma {:induction false} NoTransfersOwned(log: Log, u: UserId)
    requires forall i :: 0 <= i < |log| ==> log[i].kind != Transfer
    ensures Owned(log, u, Transfer) == [] && Sent(log, u) == []
    decreases |log|
  {
    if log != [] {
      NoTransfersOwned(Init(log), u);
    }
  }

  // ---- One-pass aggregation ------------------------------------------

  /** One pass over the log that computes `UserBalance`. */
  method GetUserBalance(log: Log, u: UserId) returns (report: BalanceReport)
    ensures report == UserBalance(log, u)
  {
    var balance := 0;
    var statement: Log := [];
    var i := 0;
    while i < |log|
      invariant 0 <= i <= |log|
      invariant balance == Balance(log[..i], u)
      invariant statement == Statements(log[..i], u)
    {
      assert log[..i + 1] == log[..i] + [log[i]];
      BalanceAppend(log[..i], log[i], u);
      StatementsAppend(log[..i], log[i], u);
      balance := balance + Effect(log[i], u);
      if Involves(log[i], u) {
        statement := statement + [log[i]];
      }
      i := i + 1;
    }
    assert log[..i] == log;
    report := BalanceReport(statement, balance);
  }

  // ---- Log invariant and lookup by id --------------------------------

  /** Ids are the insertion positions (so they are unique), and `senderId`
      is set exactly on transfers. */
  predicate WellFormed(log: Log) {
    forall i :: 0 <= i < |log| ==>
      log[i].id == i && (log[i].senderId.Some? <==> log[i].kind == Transfer)
  }

  /** The first record with the given id, if any. */
  function FindById(log: Log, id: nat): (r: Option<Statement>)
    ensures r.Some? ==> r.value in log && r.value.id == id
    ensures r.None? ==> forall i :: 0 <= i < |log| ==> log[i].id != id
  {
    if log == [] then None
    else if log[0].id == id then Some(log[0])
    else
      var rest := FindById(log[1..], id);
      rest
  }

  /** In a well-formed log, a record is found again by its id. */
  lemma FindByIdFindsRecord(log: Log, i: nat)
    requires WellFormed(log) && i < |log|
    ensures FindById(log, i) == Some(log[i])
  {
    assert log[i].id == i;
    var j :| 0 <= j < |log| && log[j] == FindById(log, i).value;
  }
}

=== FILE: results.dfy ===
/** Failure-carrying datatypes shared by the use cases: an optional value
    (the nullable `sender_id` column) and a success/failure result (the
    use cases' thrown errors). */
module Results {

  datatype Option<+T> = None | Some(value: T)

  datatype Result<+R, +E> = Success(value: R) | Failure(error: E)
}

=== FILE: scenarios.dfy ===
/** The use cases' test scenarios, replayed on the model, and the
    sender-side view of a transfer. */
module LedgerScenarios {
  import opened Results
  import opened Ledger
  import TransferFunds
  import CreateStatement
  import BalanceMap

  const Payer: UserId := "ina"
  const Payee: UserId := "daisy"
  const Unknown: UserId := "nonexists-user"

  /** Deposit 150 and withdraw 45: balance 105 over 2 entries. */
  lemma GetBalanceScenario()
    ensures var s1 := CreateStatement.Execute([], {Payer}, Payer, Deposit, 150, "sale", 1);
            var s2 := CreateStatement.Execute(s1.log, {Payer}, Payer, Withdraw, 45, "bill", 2);
            && s1.result.Success? && s2.result.Success?
            && Balance(s2.log, Payer) == 105
            && |Statements(s2.log, Payer)| == 2
            && BalanceMap.ToDTO(UserBalance(s2.log, Payer)).balance == 105
  {
    var s1 := CreateStatement.Execute([], {Payer}, Payer, Deposit, 150, "sale", 1);
    CreateStatement.MovementMovesFunds([], {Payer}, Payer, Deposit, 150, "sale", 1, Payer);
    CreateStatement.MovementMovesFunds(s1.log, {Payer}, Payer, Withdraw, 45, "bill", 2, Payer);
  }

  /** Deposit 510, then withdraw 100: each returns its record with the
      requested amount, description and type, leaving 410 over 2 entries; a
      withdrawal of 139000 fails on funds; an unknown account fails on the
      lookup. */
  lemma CreateStatementScenario()
    ensures var s1 := CreateStatement.Execute([], {Payer}, Payer, Deposit, 510, "sale", 1);
            var s2 := CreateStatement.Execute(s1.log, {Payer}, Payer, Withdraw, 100, "flour", 2);
            && s1.result.Success? && s2.result.Success?
            && s1.result.value.amount == 510 && s1.result.value.description == "sale"
            && s1.result.value.kind == Deposit
            && s2.result.value.amount == 100 && s2.result.value.description == "flour"
            && s2.result.value.kind == Withdraw
            && Balance(s2.log, Payer) == 410
            && |Statements(s2.log, Payer)| == 2
            && CreateStatement.Execute(s2.log, {Payer}, Payer, Withdraw, 139000, "car", 3)
                 == Step(Failure(CreateStatement.InsufficientFunds), s2.log)
            && CreateStatement.Execute(s2.log, {Payer}, Unknown, Withdraw, 100, "flour", 3)
                 == Step(Failure(CreateStatement.UserNotFound), s2.log)
  {
    var s1 := CreateStatement.Execute([], {Payer}, Payer, Deposit, 510, "sale", 1);
    CreateStatement.MovementMovesFunds([], {Payer}, Payer, Deposit, 510, "sale", 1, Payer);
    CreateStatement.MovementMovesFunds(s1.log, {Payer}, Payer, Withdraw, 100, "flour", 2, Payer);
  }

  /** Deposit 4500, transfer 400: payer 4100 over 2 entries, payee 400 over
      1 entry. Then 40000 to an unknown account fails on funds, 400 to an
      unknown account fails on the lookup, and another 400 to the payee
      still succeeds. */
  lemma TransferScenario()
    ensures var users := {Payer, Payee};
            var funded := CreateStatement.Execute([], users, Payer, Deposit, 4500, "salary", 1);
            var sent := TransferFunds.Execute(funded.log, users, TransferFunds.Request(Payer, Payee, 400, "laptop part"), 2);
            && sent.result.Success?
            && sent.result.value.userId == Payee
            && sent.result.value.senderId == Some(Payer)
            && Balance(sent.log, Payer) == 4100 && |Statements(sent.log, Payer)| == 2
            && Balance(sent.log, Payee) == 400 && |Statements(sent.log, Payee)| == 1
            && TransferFunds.Execute(sent.log, users, TransferFunds.Request(Payer, Unknown, 40000, "farm"), 3)
                 == Step(Failure(TransferFunds.InsufficientFunds), sent.log)
            && TransferFunds.Execute(sent.log, users, TransferFunds.Request(Payer, Unknown, 400, "laptop part"), 3)
                 == Step(Failure(TransferFunds.UserNotFound), sent.log)
            && TransferFunds.Execute(sent.log, users, TransferFunds.Request(Payer, Payee, 400, "laptop part"), 3).result.Success?
  {
    var users := {Payer, Payee};
    var funded := CreateStatement.Execute([], users, Payer, Deposit, 4500, "salary", 1);
    CreateStatement.MovementMovesFunds([], users, Payer, Deposit, 4500, "salary", 1, Payee);
    var req := TransferFunds.Request(Payer, Payee, 400, "laptop part");
    TransferFunds.TransferMovesFunds(funded.log, users, req, 2, Payer);
    TransferFunds.TransferExtendsStatements(funded.log, users, req, 2, Payer);
  }

  /** Deposit 900, transfer 510: the payer is left with 390, and the
      returned record names the payer as `senderId` with the amount,
      description and type of the request. */
  lemma TransferControllerScenario()
    ensures var users := {Payer, Payee};
            var funded := CreateStatement.Execute([], users, Payer, Deposit, 900, "salary", 1);
            var sent := TransferFunds.Execute(funded.log, users, TransferFunds.Request(Payer, Payee, 510, "help"), 2);
            && sent.result.Success?
            && sent.result.value.senderId == Some(Payer)
            && sent.result.value.amount == 510
            && sent.result.value.kind == Transfer
            && sent.result.value.description == "help"
            && Balance(sent.log, Payer) == 390
  {
    var users := {Payer, Payee};
    var funded := CreateStatement.Execute([], users, Payer, Deposit, 900, "salary", 1);
    CreateStatement.MovementMovesFunds([], users, Payer, Deposit, 900, "salary", 1, Payee);
    TransferFunds.TransferMovesFunds(funded.log, users, TransferFunds.Request(Payer, Payee, 510, "help"), 2, Payer);
  }

  /** After a successful transfer, the payer's balance response ends with
      an entry of type transfer that names the payer as sender, so the
      payer can tell the outgoing transfer from a deposit. */
  lemma SenderSeesOutgoingTransfer(log: Log, users: set<UserId>, req: TransferFunds.Request, now: int)
    requires req.senderId != ""
    requires TransferFunds.Execute(log, users, req, now).result.Success?
    ensures var out := TransferFunds.Execute(log, users, req, now);
            var view := BalanceMap.ToDTO(UserBalance(out.log, req.senderId));
            && |view.statement| == |Statements(log, req.senderId)| + 1
            && view.statement[|view.statement| - 1].kind == Transfer
            && view.statement[|view.statement| - 1].senderId == Some(req.senderId)
            && view.statement[|view.statement| - 1].amount == req.amount
  {
    TransferFunds.TransferExtendsStatements(log, users, req, now, req.senderId);
  }
}

=== FILE: transfer_funds.dfy ===
/** The transfer use case: check the payer's funds, look up the receiver,
    then append one transfer record filed under the receiver. */
module TransferFunds {
  import opened Results
  import opened Ledger

  datatype TransferError = InsufficientFunds | UserNotFound

  datatype Request = Request(senderId: UserId, receiverId: UserId, amount: int, description: string)

  /** The record a successful transfer appends. */
  function TransferRecord(log: Log, req: Request, now: int): Statement {
    Statement(|log|, req.receiverId, Some(req.senderId), Transfer, req.amount, req.description, now, now)
  }

  /** Runs a transfer against the log. `users` is the account directory and
      `now` the clock. The funds check comes first; only the receiver is
      looked up; nothing is appended on either failure. */
  function Execute(log: Log, users: set<UserId>, req: Request, now: int): (out: Step<TransferError>)
    ensures Balance(log, req.senderId) < req.amount ==>
              out == Step(Failure(InsufficientFunds), log)
    ensures Balance(log, req.senderId) >= req.amount && req.receiverId !in users ==>
              out == Step(Failure(UserNotFound), log)
    ensures out.result.Success? <==>
              Balance(log, req.senderId) >= req.amount && req.receiverId in users
    ensures out.result.Success? ==>
              var st := out.result.value;
              && out.log == log + [st]
              && st.id == |log|
              && st.userId == req.receiverId
              && st.senderId == Some(req.senderId)
              && st.kind == Transfer
              && st.amount == req.amount
              && st.description == req.description
  {
    if Balance(log, req.senderId) < req.amount then
      Step(Failure(InsufficientFunds), log)
    else if req.receiverId !in users then
      Step(Failure(UserNotFound), log)
    else
      var st := TransferRecord(log, req, now);
      Step(Success(st), log + [st])
  }

  /** A transfer of the whole balance passes the funds check: the
      comparison is strict. */
  lemma WholeBalanceCanBeSent(log: Log, users: set<UserId>, req: Request, now: int)
    requires req.amount == Balance(log, req.senderId) && req.receiverId in users
    ensures Execute(log, users, req, now).result.Success?
  {
  }

  /** A successful transfer between two accounts debits the sender by the
      amount, credits the receiver by it, and leaves every other balance
      alone. */
  lemma TransferMovesFunds(log: Log, users: set<UserId>, req: Request, now: int, other: UserId)
    requires req.senderId != req.receiverId
    requires Execute(log, users, req, now).result.Success?
    ensures var log' := Execute(log, users, req, now).log;
            && Balance(log', req.senderId) == Balance(log, req.senderId) - req.amount
            && Balance(log', req.receiverId) == Balance(log, req.receiverId) + req.amount
            && (other != req.senderId && other != req.receiverId ==> Balance(log', other) == Balance(log, other))
  {
    var st := TransferRecord(log, req, now);
    BalanceAppend(log, st, req.senderId);
    BalanceAppend(log, st, req.receiverId);
    BalanceAppend(log, st, other);
  }

  /** Sending to oneself is not rejected: it succeeds when the funds check
      passes and the account is in the directory, and it leaves the balance
      unchanged, because the one record credits and debits its owner. */
  lemma SelfTransferKeepsBalance(log: Log, users: set<UserId>, req: Request, now: int)
    requires req.senderId == req.receiverId
    requires req.senderId in users && req.amount <= Balance(log, req.senderId)
    ensures Execute(log, users, req, now).result.Success?
    ensures Balance(Execute(log, users, req, now).log, req.senderId) == Balance(log, req.senderId)
  {
    BalanceAppend(log, TransferRecord(log, req, now), req.senderId);
  }

  /** After a successful transfer the new record is the last entry of both
      parties' statement lists, and nobody else's list changes. */
  lemma TransferExtendsStatements(log: Log, users: set<UserId>, req: Request, now: int, other: UserId)
    requires Execute(log, users, req, now).result.Success?
    ensures var out := Execute(log, users, req, now);
            && Statements(out.log, req.senderId) == Statements(log, req.senderId) + [out.result.value]
            && Statements(out.log, req.receiverId) == Statements(log, req.receiverId) + [out.result.value]
            && (other != req.senderId && other != req.receiverId ==>
                  Statements(out.log, other) == Statements(log, other))
  {
    var st := TransferRecord(log, req, now);
    StatementsAppend(log, st, req.senderId);
    StatementsAppend(log, st, req.receiverId);
    StatementsAppend(log, st, other);
  }

  /** The payer never ends below zero: the funds check guards the debit. */
  lemma TransferNeverOverdrawsSender(log: Log, users: set<UserId>, req: Request, now: int)
    requires req.senderId != req.receiverId
    requires Execute(log, users, req, now).result.Success?
    ensures Balance(Execute(log, users, req, now).log, req.senderId) >= 0
  {
    TransferMovesFunds(log, users, req, now, req.senderId);
  }

  /** A transfer of a non-negative amount keeps every account solvent. */
  lemma TransferPreservesSolvency(log: Log, users: set<UserId>, req: Request, now: int)
    requires Solvent(log) && req.amount >= 0
    ensures Solvent(Execute(log, users, req, now).log)
  {
    var out := Execute(log, users, req, now);
    if out.result.Success? {
      forall u ensures Balance(out.log, u) >= 0 {
        BalanceAppend(log, out.result.value, u);
      }
    }
  }

  /** The transfer use case does not reject a negative amount: it passes the funds
      check and drains the receiver below zero. */
  lemma NegativeAmountDrainsReceiver()
    ensures var log := [];
            var out := Execute(log, {"receiver"}, Request("sender", "receiver", -50, "refund"), 0);
            && out.result.Success?
            && Balance(out.log, "receiver") == -50
            && Balance(out.log, "sender") == 50
  {
    var req := Request("sender", "receiver", -50, "refund");
    var st := TransferRecord([], req, 0);
    BalanceAppend([], st, "receiver");
    BalanceAppend([], st, "sender");
  }

  /** A transfer keeps the log well formed, and the new record can be
      fetched back by its id. */
  lemma TransferPreservesWellFormed(log: Log, users: set<UserId>, req: Request, now: int)
    requires WellFormed(log)
    ensures WellFormed(Execute(log, users, req, now).log)
    ensures var out := Execute(log, users, req, now);
            out.result.Success? ==> FindById(out.log, out.result.value.id) == Some(out.result.value)
  {
    var out := Execute(log, users, req, now);
    if out.result.Success? {
      assert forall i :: 0 <= i < |log| ==> out.log[i] == log[i];
      FindByIdFindsRecord(out.log, |log|);
    }
  }
}
